=== FILE: README.md ===
# Crowdfunding backend core — a Dafny model

This project models the parts of the crowdfunding-platform backend (Express +
Sequelize over MySQL) that have hand-written logic, and proves properties about them:

- **The relational store and its cascades** (`Schema`, schema.dfy). It covers the ten tables of
  `_helpers/db.js` and their foreign keys. Every `hasMany(..., { onDelete: 'CASCADE' })`
  association is modelled as a link from child to parent. `Delete` removes a row together with
  every row that transitively depends on it. Auto-increment counters are also modelled.
- **The event attribute schema** (`EventModel`, event_model.dfy; `Events`, events.dfy). This is
  a typed record. Sequelize's notNull validation is modelled, and so is creation under a fresh
  auto-increment key.
- **The event-participation service** (`Participants`, participants.dfy). It covers `joinEvent`
  and the three queries. They run over the same store, so the cascade lemmas apply to
  participants directly.
- **The revenue service** (`Revenue`, revenue.dfy). It is a standalone table with create,
  lookup, update and delete. The update uses `Object.assign` semantics.
- **The accounts controller's own decisions** (`AccountsController`, accounts_controller.dfy).
  These are:
  - the refresh-token cookie;
  - the mapping from authentication errors to replies;
  - the revoke-token gate;
  - the field rules of the register, reset-password and admin-create schemas;
  - the image name that registration stores.

  POSIX `path.basename` is modelled in `PathNames` (path_names.dfy).

Each operation is a pure function. Errors are values of `Result`. What a service throws is a `Thrown`: either a bare string or an `Error` object with its message. Strict equality in JavaScript tells the two apart, so the model keeps them apart too. A failing operation returns
no new store, so it leaves the store as it was. Clocks (`Date.now()`, `joinedAt`) are parameters.

## Model

| member | source | states |
|---|---|---|
| Schema.ParentTables | _helpers/db.js:27-95 | Every table except Account belongs to an account. Campaign is the parent of exactly Donation, Withdraw and Comment, Event of exactly EventParticipant, and Reward of exactly RedeemReward. Every parent table is shallower than its child, so the association graph has no cycle. |
| Schema.DependsOn | _helpers/db.js:27-95 | A row that a deletion of `k` reaches through cascading links is either `k` itself or a live row of a strictly deeper table. |
| Schema.Delete | _helpers/db.js:27-95 | Deleting a row removes that row and only removes rows. Every surviving row is unchanged. Auto-increment counters are untouched, so ids are not reused. |
| Schema.DeleteRemovesChildren | _helpers/db.js:27-95 | Every row whose foreign key names the deleted row is removed. Each `hasMany` association cascades. |
| Schema.DeleteRemovesGrandchildren | _helpers/db.js:32-92 | Cascades are transitive. A row linked to a removed child is removed too. |
| Schema.DeleteAccountCascade | _helpers/db.js:27-95 | Every table other than Account links to Account. Deleting an account removes every row it owns in those tables. It also removes every row that hangs off one of its campaigns, rewards or events, whoever owns that row. |
| Schema.DeleteCampaignCascade | _helpers/db.js:47-92 | Donation, Withdraw and Comment are exactly the tables that link to Campaign. Deleting a campaign removes all of its rows in them. |
| Schema.DeleteEventAndRewardCascade | _helpers/db.js:65-72 | Only EventParticipant links to Event, and only RedeemReward links to Reward. Deleting an event or a reward removes its participants or its redemptions. |
| Schema.DeleteIsDownwardClosed | _helpers/db.js:27-95 | If a row links to a row that a deletion removes, that row is removed as well. |
| Schema.DeleteRemovesOnlyForcedRows | _helpers/db.js:27-95 | Take any set that contains the deleted key and also every row linking into the set. Each removed row is in that set, so a cascade removes only the rows it is forced to remove. |
| Schema.DeletePreservesValid | _helpers/db.js:27-95 | On a valid store, deletion leaves a valid store. Every link still names a live row, and row shapes and counters still hold. |
| Schema.DeleteFrame | _helpers/db.js:27-95 | A row that does not depend on the deleted row survives unchanged. |
| Schema.DeleteMissingRowIsNoop | _helpers/db.js:27-95 | In a store with no dangling links, deleting a key that is not live changes nothing. |
| Schema.DeleteKeepsShallowerRows | _helpers/db.js:27-95 | A deletion never removes a different row that is no deeper in the association graph than the deleted row. |
| Schema.DeleteKeepsParents | _helpers/db.js:28-95 | Associations are one-directional. Deleting a row, for example a refresh token or a donation, never removes a row it links to. |
| Schema.DependsOnLiveRow | _helpers/db.js:27-95 | In a store without dangling links, a live row can depend only on a live row. |
| Schema.Insert | events/event.model.js:5 | An auto-increment insert changes only the new key and advances only that table's counter. In a valid store, no live row of the table already has that key. |
| Schema.InsertPreservesValid | _helpers/db.js:28-95 | Inserting a well-shaped row whose links all name live rows keeps the store valid. |
| EventModel.Validate | events/event.model.js:4-13 | notNull validation passes exactly when `Acc_ID`, name, description, date, location and status are all non-null. Otherwise it reports exactly the null columns. The image is carried through as optional. |
| EventModel.EventCreatableWithoutImage | events/event.model.js:11-12 | An event that passes notNull validation still passes with a null image, and it then has none. |
| Events.CreateEvent | events/event.model.js:4-19 | Creation passes notNull validation exactly when every mandatory column is supplied. On success exactly one event row is added, owned by the given `Acc_ID` and storing the given name, description, date, location, status and image. In a valid store its key is new and every other row is unchanged. On failure the error lists exactly the missing mandatory columns. |
| Events.CreateEventPreservesValid | _helpers/db.js:37-38 | Creating an event owned by a live account keeps every link live. |
| Events.CreatedEventIdsAreDistinct | events/event.model.js:5 | Two events created one after the other get distinct keys. |
| Participants.JoinEvent | eventParticipant/eventParticipant.service.js:10-23 | An unknown event fails with the thrown string 'Event not found', and this check comes first. An existing (account, event) pair fails with the thrown string 'User already joined this event'. Otherwise exactly one row for the pair is added, with the success message and `joinedAt`. In a valid store the row's key is new. |
| Participants.JoinPreservesUniqueJoins | eventParticipant/eventParticipant.service.js:14-17 | If no two participant rows shared an (Acc_ID, Event_ID) pair before a successful join, none do after it. |
| Participants.JoinPreservesValid | eventParticipant/eventParticipant.service.js:10-17 | The service never checks the account. A join by a live account keeps every link live. |
| Participants.DeletePreservesUniqueJoins | _helpers/db.js:72-76 | A cascading delete cannot create a duplicate join pair. |
| Participants.GetJoinedEvents | eventParticipant/eventParticipant.service.js:25-40 | Returns exactly the participant rows whose `Acc_ID` is `accId`. |
| Participants.GetAllParticipants | eventParticipant/eventParticipant.service.js:42-53 | Returns exactly the participant rows whose `Event_ID` is `eventId`. |
| Participants.GetAll | eventParticipant/eventParticipant.service.js:55-72 | Returns exactly the participant rows. |
| Participants.JoinThenQuery | eventParticipant/eventParticipant.service.js:10-72 | A successful join adds one new key to that account's query, that event's query and the full listing. Every other account's and event's query is unchanged. |
| Participants.QueriesCoverAll | eventParticipant/eventParticipant.service.js:25-56 | Every participant row appears in its account's query and its event's query, and in no other account's query. |
| Participants.DeleteAccountClearsJoins | _helpers/db.js:75 | After an account is deleted, its joined-events query is empty. |
| Participants.DeleteEventClearsParticipants | _helpers/db.js:72 | After an event is deleted, its participants query is empty. |
| Revenue.CreateRevenue | Revenue/revenue.service.js:3-6 | Inserts a row carrying exactly the given data under an id no row had, and returns that id. |
| Revenue.GetRevenueById | Revenue/revenue.service.js:22-34 | Returns the row with that id, or nothing when no row has it. |
| Revenue.Assign | Revenue/revenue.service.js:39 | Each supplied column takes the supplied value and every other column is kept. |
| Revenue.UpdateRevenue | Revenue/revenue.service.js:36-42 | A missing id fails with an `Error` whose message is 'Revenue not found', and carries no new ledger. Otherwise the saved row replaces only that id's row. |
| Revenue.DeleteRevenue | Revenue/revenue.service.js:44-49 | A missing id fails with an `Error` whose message is 'Revenue not found'. Otherwise exactly that row is removed and returned, and every other row is untouched. |
| Revenue.CreateThenGet | Revenue/revenue.service.js:3-23 | A lookup finds the created row with exactly its data. The id was unused before, and every other lookup is unchanged. |
| Revenue.DeleteThenGet | Revenue/revenue.service.js:44-49 | After a delete, a lookup of that id finds nothing. A second delete or an update of it fails with 'Revenue not found'. Other rows read as before. |
| Revenue.UpdateThenGet | Revenue/revenue.service.js:36-42 | The next lookup sees the merged row, and no other row changes. |
| Revenue.UpdatesCompose | Revenue/revenue.service.js:39-40 | Two updates in a row equal a single update with the merged data, where the later values win. |
| Revenue.UpdateIsIdempotent | Revenue/revenue.service.js:39-40 | Repeating an update leaves the ledger as the first update left it. |
| Revenue.MutationsPreserveValid | Revenue/revenue.service.js:36-49 | Update and delete keep every id below the auto-increment counter. |
| AccountsController.TokenCookie | accounts/accounts.controller.js:112-119 | The `refreshToken` cookie is http-only, carries the token, and expires exactly 604,800,000 ms after `now`. |
| AccountsController.AuthenticateReply | accounts/accounts.controller.js:49-68 | A failure becomes a 403 with the message exactly when it is the thrown 'Account not verified…' string. Every other failure goes unchanged to `next`. A success sets the cookie and returns every field of the account with its value, plus the refresh token. |
| AccountsController.NotVerifiedErrorObjectIsNotForbidden | accounts/accounts.controller.js:63-66 | The comparison is strict equality. An `Error` object with the same message goes to `next`, and the thrown string gives 403. |
| AccountsController.RefreshTokenReply | accounts/accounts.controller.js:73-82 | A success sets the cookie, and the JSON body is the account without the token. A failure goes to `next`. |
| AccountsController.SessionRepliesShareCookie | accounts/accounts.controller.js:49-82 | For the same session, authenticate and refresh set the same cookie, and that cookie carries the session's token. Their bodies differ only in the `refreshToken` field that authenticate adds. |
| AccountsController.RevokeGate | accounts/accounts.controller.js:84-104 | The schema needs a body token. A missing or empty cookie is refused with 400. A caller who neither owns the cookie token nor is an Admin is refused with 401. In every other case the request reaches revocation of the cookie token. |
| AccountsController.RevokeTokenReply | accounts/accounts.controller.js:91-109 | The reply is 400 'Token is required' or 401 'Unauthorized' exactly when the gate says so. Only a request that passes the gate is answered by the revocation outcome. |
| AccountsController.StoppedRequestsNeverReachRevocation | accounts/accounts.controller.js:95-104 | A request the gate stops gets the same reply whatever revocation would do, and never 'Token revoked'. |
| AccountsController.RevokeIgnoresBodyToken | accounts/accounts.controller.js:92-106 | The body token must be present, but its value never changes the decision. |
| AccountsController.AdminAlwaysRevokes | accounts/accounts.controller.js:102-106 | An Admin with a non-empty cookie always reaches revocation of the cookie token. |
| AccountsController.Utf16Length | accounts/accounts.controller.js:125 | The length Joi's `min(6)` measures is JavaScript's `.length` in UTF-16 code units. It is at least the number of code points and at most twice that. It equals the number of code points exactly when no code point lies beyond U+FFFF. |
| AccountsController.Utf16LengthOfConcat | accounts/accounts.controller.js:125 | The UTF-16 length of a concatenation is the sum of the two lengths. |
| AccountsController.AstralPasswordsCountTwice | accounts/accounts.controller.js:125 | Three emoji are six code units, so they pass `min(6)`. Five ASCII letters do not. |
| AccountsController.RegisterViolations | accounts/accounts.controller.js:122-134 | Registration is accepted exactly when email, names and phone are present, the password has at least 6 UTF-16 code units, `confirmPassword` equals it, and `acc_acceptTerms` is true. |
| AccountsController.ResetViolations | accounts/accounts.controller.js:198-204 | A reset is accepted exactly when the token is present and the password has at least 6 UTF-16 code units. |
| AccountsController.CreateViolations | accounts/accounts.controller.js:230-241 | Admin creation is accepted exactly when the required fields are present, the password has at least 6 UTF-16 code units and is confirmed, and the role is Admin or User. |
| AccountsController.PasswordRulesAgree | accounts/accounts.controller.js:122-241 | The three schemas accept the same passwords. A password shorter than 6 UTF-16 code units is refused by all three. |
| AccountsController.AcceptedRegistrationIsConfirmed | accounts/accounts.controller.js:125-130 | An accepted registration has a confirmed password of at least 6 UTF-16 code units and accepted terms. |
| AccountsController.RegisterImageAsWritten | accounts/accounts.controller.js:139 | As written, the image expression throws an `Error` exactly when a file was uploaded. Without an upload it yields the same name as the intended image, 'default-image.png'. |
| AccountsController.UploadedImageBreaksRegistration | accounts/accounts.controller.js:139 | As written, every registration with an uploaded image throws, although the intended image name is the upload's base name. Without an upload it uses 'default-image.png'. |
| AccountsController.RegisterImage | accounts/accounts.controller.js:136-139 | Without an upload the image is 'default-image.png'. With one it is the upload path's base name, which contains no '/'. |
| AccountsController.RegisterImageKeepsFileName | accounts/accounts.controller.js:139 | An upload stored as `dir/name` is registered under `name`. |
| PathNames.Basename | accounts/accounts.controller.js:139 | Returns the last non-empty segment of the path, ignoring trailing slashes. It is empty exactly when the path holds only slashes. |
| PathNames.BasenameOfJoin | accounts/accounts.controller.js:139 | The base name of `dir/name` is `name`. |

## Left out

- Database bootstrap, `sequelize.sync` and the module-level `db` object (_helpers/db.js:11-19,101). These are I/O and ORM set-up.
- Token issuance and rotation, password hashing, email verification, reset tokens, `updatePoints` and reward redemption. The account and reward services that implement them are not part of this model. The controller handlers for them only forward. This includes `refreshToken`'s service call, `verifyEmail`, `forgotPassword`, `validateResetToken`, `resetPassword`, `getAll`, `getById`, `create`, `update`, `_delete` and `updatePoints`.
- rewards/reward.controller.js. It holds routing, declarative schemas and pass-through handlers only.
- `getAllRevenues` (Revenue/revenue.service.js:8-20). It returns the whole table, and the table is `Ledger.rows` itself. Only its eager-loaded donation and account are extra, and those are not modelled.
- Revenue's link to Donation. The revenue table is not registered in _helpers/db.js, so it is modelled as a standalone table, and its queries' eager loads of donations and accounts are not modelled.
- Eager-load projections. The attribute lists of `include` are not modelled, so queries return participant keys.
- Database foreign-key enforcement on insert. Inserts are not checked against live parents. Integrity is proved under the precondition that the owning account and event are live.
- Sequelize's default foreign-key column names (_helpers/db.js:72,75). Links are modelled as `Acc_ID` and `Event_ID`.
- Participant keys. eventParticipant.model.js is not part of this model, so an auto-increment id is assumed.
- Concurrency and transactions. The check-then-insert of `joinEvent` is modelled sequentially.
- Categories, likes and set-null rules. No such code appears in the modelled files.
- `validateRequest`, multer, `res.cookie` mechanics, console logging and routing. A body refused by a schema is the single reply `ValidationRejected`.
- The `authenticate`, `verifyEmail`, `forgotPassword`, `validateResetToken`, `update` and `updatePoints` schemas (accounts/accounts.controller.js:41-47,153-190,251-262,285-290). None has a cross-field rule. `updateSchema` makes every field optional, allows `acc_passwordHash` only with at least 6 UTF-16 code units, and takes `acc_totalpoints` as a number. `updatePointsSchema` requires `acc_totalpoints` as a number. None of these rules is modelled.
- The values of `_helpers/role`, which is not part of this model. They are taken as "Admin" and "User".
- `Date` range limits. An expiry beyond JavaScript's date range is not modelled.
- AccountsController.RegisterViolations: does not check email format (`Joi.string().email()`) or Joi's conversion of strings such as "true" to booleans. The terms flag arrives as an already-typed boolean. Only the declared fields are judged. Whether undeclared keys are refused depends on the options of `validateRequest`, which is not part of this model. `register` also reads `acc_totalpoints` and `acc_role` (accounts/accounts.controller.js:138), which `registerSchema` does not declare.
- AccountsController.CreateViolations: does not check email format. Only the declared fields are judged. Whether undeclared keys are refused depends on `validateRequest`, which is not part of this model.
- AccountsController.RevokeGate: does not model `authorize()` rejecting a caller without a valid access token. The caller is given.
- Revenue.Assign: assumes every supplied key is a column of the revenue model, and that `data` does not carry the primary key.
- Revenue.CreateRevenue: stores `data` as given. Sequelize's `create` keeps only the model's attributes and fills in column defaults; the revenue model is not part of this model, so neither is applied.
- Revenue.CreateRevenue: models the service as if `db.Revenue` were registered. _helpers/db.js never assigns `db.Revenue`, so as written `db.Revenue.create` throws a TypeError on every call.
- Revenue.GetRevenueById: models the lookup as if `db.Revenue` were registered. As written, `db.Revenue.findByPk` throws a TypeError on every call.
- Revenue.UpdateRevenue: models the update as if `db.Revenue` were registered. As written, it throws the lookup's TypeError before the 'Revenue not found' check.
- Revenue.DeleteRevenue: models the delete as if `db.Revenue` were registered. As written, it throws the lookup's TypeError before the 'Revenue not found' check.
- Events.CreateEvent: does not model the column limits MySQL enforces when the row is inserted. These are the VARCHAR(255) width of `DataTypes.STRING` (name, location, image), the signed 32-bit range of `DataTypes.INTEGER` (`Acc_ID`, `Event_Status`, `Event_ID`), the DATETIME range of `Event_Date`, the 65,535-byte cap of `DataTypes.TEXT` on the description, and exhaustion of the auto-increment counter past 2147483647. MySQL also stores `Event_Date` as a DATETIME of whole seconds, so a date such as 1500 ms is kept as 1 s, while the model stores the given milliseconds unchanged. Ids, status and date are unbounded here, so an over-long name or a status of 2147483648 succeeds in the model, while the database refuses it in strict mode. Only Sequelize's notNull validation is a failure case.
- PathNames.Basename: models the POSIX variant only. Windows separators are not treated as separators.

## Findings

| source | as written | input that shows it | evidently intended | confidence | as-written member | corrected member |
|---|---|---|---|---|---|---|
| accounts/accounts.controller.js:139 | `path.basename(req.file.path)`, but the controller never binds `path` (no `require('path')`) | any `POST /register` that uploads an `acc_image` file: evaluating `path` throws a ReferenceError, and Express passes it to the error handler before the account service is called | store the uploaded file's base name as `acc_image` | high, not executed | AccountsController.UploadedImageBreaksRegistration | AccountsController.RegisterImage |

=== FILE: accounts_controller.dfy ===
/**
 * The hand-written decisions of the accounts controller
 * (accounts/accounts.controller.js): the refresh-token cookie, the mapping of
 * authentication failures, the revoke-token gate, the request-field rules of
 * three schemas, and the registration image default. Everything else in the
 * controller forwards to the account service.
 */
module AccountsController {
  import opened Wrappers
  import opened PathNames

  /** Role names of `_helpers/role`. */
  const AdminRole := "Admin"
  const UserRole := "User"

  datatype Body = Message(text: string) | Object(fields: map<string, string>)

  datatype Cookie = Cookie(name: string, value: string, httpOnly: bool, expires: int)

  /** How a handler ends: a JSON answer (possibly setting a cookie), or `next(err)`. */
  datatype Reply =
    | Json(status: nat, body: Body, cookie: Option<Cookie>)
    | NextError(err: Thrown)
    | ValidationRejected      // `validateRequest` refused the body

  // ----- setTokenCookie -----

  const RefreshCookieName := "refreshToken"
  const DayMs := 24 * 60 * 60 * 1000

  /** `setTokenCookie(res, token)` at clock reading `now` (milliseconds since the epoch). */
  function TokenCookie(token: string, now: int): (c: Cookie)
    ensures c.name == "refreshToken" && c.value == token && c.httpOnly
    ensures c.expires - now == 604_800_000
  {
    Cookie(RefreshCookieName, token, true, now + 7 * DayMs)
  }

  // ----- authenticate and refreshToken -----

  const NotVerifiedMessage := "Account not verified. Please check your email to verify your account."

  /** A service session: the account's fields and the new refresh token, taken apart. */
  datatype Session = Session(account: map<string, string>, refreshToken: string)

  /**
   * The `authenticate` handler after the service settles: a session sets the
   * cookie and is echoed with its token; only the exact thrown string for an
   * unverified account becomes a 403, everything else goes to `next`.
   */
  function AuthenticateReply(outcome: Result<Session, Thrown>, now: int): (r: Reply)
    ensures outcome.Failure? ==> (r.Json? <==> outcome.error == ThrownString(NotVerifiedMessage))
    ensures outcome.Failure? && r.Json? ==> r == Json(403, Message(NotVerifiedMessage), None)
    ensures outcome.Failure? && !r.Json? ==> r == NextError(outcome.error)
    ensures outcome.Success? ==>
      && r.Json? && r.status == 200
      && r.cookie == Some(TokenCookie(outcome.value.refreshToken, now))
      && r.body.Object?
      && r.body.fields.Keys == outcome.value.account.Keys + {"refreshToken"}
      && r.body.fields["refreshToken"] == outcome.value.refreshToken
      && (forall k :: k in outcome.value.account && k != "refreshToken" ==>
            r.body.fields[k] == outcome.value.account[k])
  {
    match outcome
    case Success(Session(account, token)) =>
      Json(200, Object(account["refreshToken" := token]), Some(TokenCookie(token, now)))
    case Failure(err) =>
      if err == ThrownString(NotVerifiedMessage) then Json(403, Message(err.text), None)
      else NextError(err)
  }

  /** The comparison is strict: an `Error` object with the same message is not a 403. */
  lemma NotVerifiedErrorObjectIsNotForbidden(now: int)
    ensures AuthenticateReply(Failure(ThrownError(NotVerifiedMessage)), now)
              == NextError(ThrownError(NotVerifiedMessage))
    ensures AuthenticateReply(Failure(ThrownString(NotVerifiedMessage)), now).status == 403
  {
  }

  /**
   * The `refreshToken` handler: the new token travels in the cookie only; the
   * JSON body is the account without it.
   */
  function RefreshTokenReply(outcome: Result<Session, Thrown>, now: int): (r: Reply)
    ensures outcome.Failure? ==> r == NextError(outcome.error)
    ensures outcome.Success? ==>
      && r.Json? && r.status == 200
      && r.cookie == Some(TokenCookie(outcome.value.refreshToken, now))
      && r.body == Object(outcome.value.account)
  {
    match outcome
    case Success(Session(account, token)) => Json(200, Object(account), Some(TokenCookie(token, now)))
    case Failure(err) => NextError(err)
  }

  /**
   * Both handlers hand the client the same cookie for the same session, and
   * their bodies differ only in the token that `authenticate` echoes.
   */
  lemma SessionRepliesShareCookie(session: Session, now: int)
    requires "refreshToken" !in session.account
    ensures AuthenticateReply(Success(session), now).cookie == RefreshTokenReply(Success(session), now).cookie
    ensures AuthenticateReply(Success(session), now).cookie.value.value == session.refreshToken
    ensures AuthenticateReply(Success(session), now).body.fields - {"refreshToken"}
              == RefreshTokenReply(Success(session), now).body.fields
  {
  }

  // ----- revokeToken -----

  /** `Joi.string().required()`: present and not the empty string. */
  predicate Present(v: Option<string>) {
    v.Some? && v.value != ""
  }

  /** What `authorize()` attaches as `req.auth`: the caller's role and refresh tokens. */
  datatype Caller = Caller(role: string, ownedTokens: set<string>)

  predicate OwnsToken(caller: Caller, token: string) {
    token in caller.ownedTokens
  }

  datatype RevokeDecision = BodyRejected | TokenRequired | NotAuthorized | Revoke(token: string)

  /**
   * The revoke-token gate: the body must carry a token (schema), the cookie
   * must carry one (`!token` is true for a missing or empty cookie), and the
   * caller must own it or be an admin. The token revoked is the cookie's.
   */
  function RevokeGate(bodyToken: Option<string>, cookieToken: Option<string>, caller: Caller): (r: RevokeDecision)
    ensures r == BodyRejected <==> !Present(bodyToken)
    ensures r == TokenRequired <==> Present(bodyToken) && !Present(cookieToken)
    ensures r == NotAuthorized <==>
      Present(bodyToken) && Present(cookieToken)
      && !OwnsToken(caller, cookieToken.value) && caller.role != AdminRole
    ensures r.Revoke? <==>
      Present(bodyToken) && Present(cookieToken)
      && (OwnsToken(caller, cookieToken.value) || caller.role == AdminRole)
    ensures r.Revoke? ==> Some(r.token) == cookieToken
  {
    if !Present(bodyToken) then BodyRejected
    else if !Present(cookieToken) then TokenRequired
    else if !OwnsToken(caller, cookieToken.value) && caller.role != AdminRole then NotAuthorized
    else Revoke(cookieToken.value)
  }

  /**
   * The full `revokeToken` handler; `serviceError` is how the service's
   * revocation settles, consulted only when the gate lets the request through.
   */
  function RevokeTokenReply(bodyToken: Option<string>, cookieToken: Option<string>, caller: Caller,
                            serviceError: Option<Thrown>): (r: Reply)
    ensures RevokeGate(bodyToken, cookieToken, caller) == BodyRejected <==> r == ValidationRejected
    ensures RevokeGate(bodyToken, cookieToken, caller) == TokenRequired <==>
      r == Json(400, Message("Token is required"), None)
    ensures RevokeGate(bodyToken, cookieToken, caller) == NotAuthorized <==>
      r == Json(401, Message("Unauthorized"), None)
    ensures RevokeGate(bodyToken, cookieToken, caller).Revoke? ==>
      r == (if serviceError.Some? then NextError(serviceError.value) else Json(200, Message("Token revoked"), None))
  {
    match RevokeGate(bodyToken, cookieToken, caller)
    case BodyRejected => ValidationRejected
    case TokenRequired => Json(400, Message("Token is required"), None)
    case NotAuthorized => Json(401, Message("Unauthorized"), None)
    case Revoke(_) =>
      match serviceError
      case Some(err) => NextError(err)
      case None => Json(200, Message("Token revoked"), None)
  }

  /** A request the gate stops never reaches revocation: the service outcome is irrelevant to it. */
  lemma StoppedRequestsNeverReachRevocation(bodyToken: Option<string>, cookieToken: Option<string>, caller: Caller,
                                            e1: Option<Thrown>, e2: Option<Thrown>)
    requires !RevokeGate(bodyToken, cookieToken, caller).Revoke?
    ensures RevokeTokenReply(bodyToken, cookieToken, caller, e1) == RevokeTokenReply(bodyToken, cookieToken, caller, e2)
    ensures RevokeTokenReply(bodyToken, cookieToken, caller, e1) != Json(200, Message("Token revoked"), None)
  {
  }

  /** The body token only has to be present: which one it is never changes the decision. */
  lemma RevokeIgnoresBodyToken(body1: string, body2: string, cookieToken: Option<string>, caller: Caller)
    requires body1 != "" && body2 != ""
    ensures RevokeGate(Some(body1), cookieToken, caller) == RevokeGate(Some(body2), cookieToken, caller)
  {
  }

  /** An admin with a refresh-token cookie always reaches revocation of that cookie's token. */
  lemma AdminAlwaysRevokes(body: string, token: string, owned: set<string>)
    requires body != "" && token != ""
    ensures RevokeGate(Some(body), Some(token), Caller(AdminRole, owned)) == Revoke(token)
  {
  }

  // ----- request schemas -----

  datatype Field = Email | Password | FirstName | LastName | PhoneNumber | ConfirmPassword | AcceptTerms | Token | Role

  const MinPasswordLength := 6

  /** The first code point that JavaScript strings store as a surrogate pair. */
  const FirstAstral: char := '\U{10000}'

  /**
   * JavaScript's `s.length`: the number of UTF-16 code units of `s`. A code
   * point beyond the Basic Multilingual Plane takes two of them.
   */
  function Utf16Length(s: string): (n: nat)
    ensures |s| <= n <= 2 * |s|
    ensures n == |s| <==> forall i :: 0 <= i < |s| ==> s[i] < FirstAstral
  {
    if s == [] then 0 else (if s[0] < FirstAstral then 1 else 2) + Utf16Length(s[1..])
  }

  /** Lengths of concatenated strings add up, as `.length` does in JavaScript. */
  lemma {:induction false} Utf16LengthOfConcat(a: string, b: string)
    ensures Utf16Length(a + b) == Utf16Length(a) + Utf16Length(b)
    decreases |a|
  {
    if a == [] {
      assert a + b == b;
    } else {
      assert (a + b)[0] == a[0] && (a + b)[1..] == a[1..] + b;
      Utf16LengthOfConcat(a[1..], b);
    }
  }

  /** `Joi.string().min(6).required()`: Joi measures `value.length`. */
  predicate PasswordOk(v: Option<string>) {
    Present(v) && Utf16Length(v.value) >= MinPasswordLength
  }

  /**
   * Three emoji are six code units, so they make a long enough password,
   * while five letters do not.
   */
  lemma AstralPasswordsCountTwice()
    ensures PasswordOk(Some("\U{1F600}\U{1F600}\U{1F600}"))
    ensures !PasswordOk(Some("abcde"))
  {
    assert "\U{1F600}\U{1F600}\U{1F600}"[1..] == "\U{1F600}\U{1F600}";
    assert "\U{1F600}\U{1F600}"[1..] == "\U{1F600}";
  }

  /** `Joi.string().valid(Joi.ref('acc_passwordHash')).required()`. */
  predicate ConfirmOk(confirm: Option<string>, password: Option<string>) {
    Present(confirm) && confirm == password
  }

  datatype RegisterForm = RegisterForm(
    email: Option<string>, password: Option<string>, firstname: Option<string>,
    lastname: Option<string>, pnumber: Option<string>, confirmPassword: Option<string>,
    acceptTerms: Option<bool>)

  /** Whether `registerSchema`'s rule for `field` holds of the form. */
  predicate RegisterFieldOk(f: RegisterForm, field: Field) {
    match field
    case Email => Present(f.email)
    case Password => PasswordOk(f.password)
    case FirstName => Present(f.firstname)
    case LastName => Present(f.lastname)
    case PhoneNumber => Present(f.pnumber)
    case ConfirmPassword => ConfirmOk(f.confirmPassword, f.password)
    case AcceptTerms => f.acceptTerms == Some(true)
    case _ => true
  }

  const RegisterFields: set<Field> := {Email, Password, FirstName, LastName, PhoneNumber, ConfirmPassword, AcceptTerms}

  /**
   * A set of offending fields that is empty exactly when `registerSchema`
   * accepts the form. For a rejected form it may list more fields than Joi
   * reports.
   */
  function RegisterViolations(f: RegisterForm): (r: set<Field>)
    ensures r <= {Email, Password, FirstName, LastName, PhoneNumber, ConfirmPassword, AcceptTerms}
    ensures r == {} <==>
      && Present(f.email) && Present(f.firstname) && Present(f.lastname) && Present(f.pnumber)
      && PasswordOk(f.password)
      && f.confirmPassword == f.password
      && f.acceptTerms == Some(true)
    ensures Password in r <==> f.password.None? || Utf16Length(f.password.value) < MinPasswordLength
    ensures AcceptTerms in r <==> f.acceptTerms != Some(true)
  {
    var r := set field | field in RegisterFields && !RegisterFieldOk(f, field);
    assert Email !in r ==> Present(f.email);
    assert FirstName !in r ==> Present(f.firstname);
    assert LastName !in r ==> Present(f.lastname);
    assert PhoneNumber !in r ==> Present(f.pnumber);
    assert ConfirmPassword !in r ==> ConfirmOk(f.confirmPassword, f.password);
    assert Password !in r <==> PasswordOk(f.password);
    assert AcceptTerms !in r <==> f.acceptTerms == Some(true);
    assert (forall field :: field in RegisterFields ==> RegisterFieldOk(f, field)) ==> r == {};
    assert RegisterFieldOk(f, Email) && RegisterFieldOk(f, Password) && RegisterFieldOk(f, FirstName)
        && RegisterFieldOk(f, LastName) && RegisterFieldOk(f, PhoneNumber)
        && RegisterFieldOk(f, ConfirmPassword) && RegisterFieldOk(f, AcceptTerms)
        ==> forall field :: field in RegisterFields ==> RegisterFieldOk(f, field);
    r
  }

  datatype ResetForm = ResetForm(token: Option<string>, password: Option<string>)

  /** The fields `resetPasswordSchema` rejects. */
  function ResetViolations(f: ResetForm): (r: set<Field>)
    ensures r <= {Token, Password}
    ensures r == {} <==> Present(f.token) && f.password.Some? && Utf16Length(f.password.value) >= MinPasswordLength
  {
    (if Present(f.token) then {} else {Token})
    + (if PasswordOk(f.password) then {} else {Password})
  }

  datatype CreateForm = CreateForm(
    email: Option<string>, firstname: Option<string>, lastname: Option<string>,
    password: Option<string>, pnumber: Option<string>, confirmPassword: Option<string>,
    role: Option<string>)

  /** Whether the admin `createSchema`'s rule for `field` holds of the form. */
  predicate CreateFieldOk(f: CreateForm, field: Field) {
    match field
    case Email => Present(f.email)
    case FirstName => Present(f.firstname)
    case LastName => Present(f.lastname)
    case Password => PasswordOk(f.password)
    case PhoneNumber => Present(f.pnumber)
    case ConfirmPassword => ConfirmOk(f.confirmPassword, f.password)
    case Role => f.role == Some(AdminRole) || f.role == Some(UserRole)
    case _ => true
  }

  const CreateFields: set<Field> := {Email, FirstName, LastName, Password, PhoneNumber, ConfirmPassword, Role}

  /**
   * A set of offending fields that is empty exactly when the admin
   * `createSchema` accepts the form. For a rejected form it may list more
   * fields than Joi reports.
   */
  function CreateViolations(f: CreateForm): (r: set<Field>)
    ensures r <= {Email, FirstName, LastName, Password, PhoneNumber, ConfirmPassword, Role}
    ensures Role in r <==> f.role != Some(AdminRole) && f.role != Some(UserRole)
    ensures r == {} <==>
      && Present(f.email) && Present(f.firstname) && Present(f.lastname) && Present(f.pnumber)
      && PasswordOk(f.password)
      && f.confirmPassword == f.password
      && (f.role == Some(AdminRole) || f.role == Some(UserRole))
  {
    var r := set field | field in CreateFields && !CreateFieldOk(f, field);
    assert Email !in r ==> Present(f.email);
    assert FirstName !in r ==> Present(f.firstname);
    assert LastName !in r ==> Present(f.lastname);
    assert PhoneNumber !in r ==> Present(f.pnumber);
    assert ConfirmPassword !in r ==> ConfirmOk(f.confirmPassword, f.password);
    assert Password !in r <==> PasswordOk(f.password);
    assert Role !in r <==> f.role == Some(AdminRole) || f.role == Some(UserRole);
    assert (forall field :: field in CreateFields ==> CreateFieldOk(f, field)) ==> r == {};
    assert CreateFieldOk(f, Email) && CreateFieldOk(f, Password) && CreateFieldOk(f, FirstName)
        && CreateFieldOk(f, LastName) && CreateFieldOk(f, PhoneNumber)
        && CreateFieldOk(f, ConfirmPassword) && CreateFieldOk(f, Role)
        ==> forall field :: field in CreateFields ==> CreateFieldOk(f, field);
    r
  }

  /**
   * The three schemas agree on passwords: a password registration accepts is
   * accepted by reset and by admin creation, and a short one is refused by all.
   */
  lemma PasswordRulesAgree(f: RegisterForm, token: Option<string>, g: CreateForm)
    requires g.password == f.password
    ensures Password in RegisterViolations(f) <==> Password in ResetViolations(ResetForm(token, f.password))
    ensures Password in RegisterViolations(f) <==> Password in CreateViolations(g)
    ensures f.password.Some? && Utf16Length(f.password.value) < MinPasswordLength ==>
      RegisterViolations(f) != {} && ResetViolations(ResetForm(token, f.password)) != {} && CreateViolations(g) != {}
  {
  }

  /** A registration that passes the schema carries a confirmed password of at least six code units. */
  lemma AcceptedRegistrationIsConfirmed(f: RegisterForm)
    requires RegisterViolations(f) == {}
    ensures f.password.Some? && f.confirmPassword == f.password && Utf16Length(f.password.value) >= MinPasswordLength
    ensures f.acceptTerms == Some(true)
  {
  }

  // ----- register: the image name -----

  const DefaultImage := "default-image.png"

  /** What multer leaves in `req.file`: where it stored the upload. */
  datatype UploadedFile = UploadedFile(path: string)

  /**
   * The image expression of `register` as written: `path` is never bound in
   * the controller, so evaluating `path.basename` throws a ReferenceError.
   */
  function RegisterImageAsWritten(file: Option<UploadedFile>): (r: Result<string, Thrown>)
    ensures r.Failure? <==> file.Some?
    ensures r.Failure? ==> r.error.ThrownError?
    ensures r.Success? ==> r.value == RegisterImage(file)
  {
    match file
    case None => Success(DefaultImage)
    case Some(_) => Failure(ThrownError("path is not defined"))
  }

  /**
   * Every registration with an uploaded image is turned away before the
   * service is reached, although the intended image name exists.
   */
  lemma UploadedImageBreaksRegistration(file: UploadedFile)
    ensures RegisterImageAsWritten(Some(file)).Failure?
    ensures RegisterImage(Some(file)) == Basename(file.path)
    ensures RegisterImageAsWritten(None) == Success(DefaultImage)
  {
  }

  /**
   * The image name `register` evidently means to store: the upload's file
   * name, or the default picture when nothing was uploaded.
   */
  function RegisterImage(file: Option<UploadedFile>): (r: string)
    ensures file.None? ==> r == "default-image.png"
    ensures file.Some? ==> '/' !in r && r == Basename(file.value.path)
  {
    match file
    case None => DefaultImage
    case Some(f) => Basename(f.path)
  }

  /** An upload stored as `dir/name` is registered under `name`. */
  lemma RegisterImageKeepsFileName(dir: string, name: string)
    requires name != [] && '/' !in name
    ensures RegisterImage(Some(UploadedFile(dir + "/" + name))) == name
  {
    BasenameOfJoin(dir, name);
  }
}

=== FILE: event_model.dfy ===
/**
 * The `event` table's attribute schema (events/event.model.js): an
 * auto-increment key, a mandatory owning account and five mandatory
 * attributes, with the image as the only nullable column.
 */
module EventModel {
  import opened Wrappers

  /** Keys are modelled as naturals; only `Event_ID` is auto-increment. */
  type Id = nat

  /** A stored event's attributes other than its key and its owner. */
  datatype EventAttrs = EventAttrs(
    name: string,
    description: string,
    date: int,          // a point in time as handed to `create`, in milliseconds since the epoch
    location: string,
    status: int,
    image: Option<string>)

  /** The values handed to `create`; `None` is a null or missing attribute. */
  datatype EventInput = EventInput(
    accId: Option<Id>,
    name: Option<string>,
    description: Option<string>,
    date: Option<int>,
    location: Option<string>,
    status: Option<int>,
    image: Option<string>)

  datatype Column = AccId | Name | Description | Date | Location | Status | Image

  /** The columns declared `allowNull: false`. */
  const NotNullColumns: set<Column> := {AccId, Name, Description, Date, Location, Status}

  /** Whether the input carries a non-null value for column `c`. */
  predicate Supplied(input: EventInput, c: Column) {
    match c
    case AccId => input.accId.Some?
    case Name => input.name.Some?
    case Description => input.description.Some?
    case Date => input.date.Some?
    case Location => input.location.Some?
    case Status => input.status.Some?
    case Image => input.image.Some?
  }

  /**
   * Sequelize's notNull validation: every non-nullable column left null is
   * reported, and otherwise the owner and the typed attributes are built.
   */
  function Validate(input: EventInput): (r: Result<(Id, EventAttrs), set<Column>>)
    ensures r.Success? <==> forall c :: c in NotNullColumns ==> Supplied(input, c)
    ensures r.Failure? ==> r.error != {}
    ensures r.Failure? ==> forall c :: c in r.error <==> c in NotNullColumns && !Supplied(input, c)
    ensures r.Success? ==>
      && Some(r.value.0) == input.accId
      && Some(r.value.1.name) == input.name
      && Some(r.value.1.description) == input.description
      && Some(r.value.1.date) == input.date
      && Some(r.value.1.location) == input.location
      && Some(r.value.1.status) == input.status
      && r.value.1.image == input.image
  {
    if && input.accId.Some? && input.name.Some? && input.description.Some?
       && input.date.Some? && input.location.Some? && input.status.Some?
    then
      Success((input.accId.value,
               EventAttrs(input.name.value, input.description.value, input.date.value,
                          input.location.value, input.status.value, input.image)))
    else
      var missing := set c | c in NotNullColumns && !Supplied(input, c);
      assert AccId in missing || Name in missing || Description in missing
          || Date in missing || Location in missing || Status in missing;
      Failure(missing)
  }

  /** An event that passes validation still does so with a null image, and then has none. */
  lemma EventCreatableWithoutImage(input: EventInput)
    requires forall c :: c in NotNullColumns ==> Supplied(input, c)
    ensures Validate(input.(image := None)).Success?
    ensures Validate(input.(image := None)).value.1.image == None
  {
    var stripped := input.(image := None);
    forall c | c in NotNullColumns
      ensures Supplied(stripped, c)
    {
      assert Supplied(input, c);
    }
  }
}

=== FILE: events.dfy ===
/**
 * Creating a row of the `event` table: notNull validation of the attributes
 * (events/event.model.js) followed by an auto-increment insert.
 */
module Events {
  import opened Wrappers
  import opened EventModel
  import opened Schema

  /** The stored form of a validated event: its owner link and its attributes. */
  function EventRow(owner: Id, attrs: EventAttrs): Row {
    Row(map[Account := owner], EventData(attrs))
  }

  /**
   * `Event.create(input)`: rejected with the null columns when a mandatory
   * attribute is missing; otherwise one new event row under a fresh key.
   */
  function CreateEvent(db: Db, input: EventInput): (r: Result<(Db, Id), set<Column>>)
    ensures r.Success? <==> forall c :: c in NotNullColumns ==> Supplied(input, c)
    ensures r.Failure? ==> r.error != {}
    ensures r.Failure? ==> forall c :: c in r.error <==> c in NotNullColumns && !Supplied(input, c)
    ensures r.Success? && Valid(db) ==>
      var (db', id) := r.value;
      && Key(Event, id) !in db.rows
      && (forall k :: k in db.rows ==> k in db'.rows && db'.rows[k] == db.rows[k])
    ensures r.Success? ==>
      var (db', id) := r.value;
      && db'.rows.Keys == db.rows.Keys + {Key(Event, id)}
      && db'.rows[Key(Event, id)].links == map[Account := input.accId.value]
      && db'.rows[Key(Event, id)].data == EventData(EventAttrs(
           input.name.value, input.description.value, input.date.value,
           input.location.value, input.status.value, input.image))
  {
    match Validate(input)
    case Failure(missing) => Failure(missing)
    case Success((owner, attrs)) =>
      Success(Insert(db, Event, EventRow(owner, attrs)))
  }

  /** Creating an event owned by a live account keeps the store valid. */
  lemma CreateEventPreservesValid(db: Db, input: EventInput, owner: Id)
    requires Valid(db)
    requires forall c :: c in NotNullColumns ==> Supplied(input, c)
    requires input.accId == Some(owner) && Key(Account, owner) in db.rows
    ensures Valid(CreateEvent(db, input).value.0)
  {
    var (owner, attrs) := Validate(input).value;
    InsertPreservesValid(db, Event, EventRow(owner, attrs));
  }

  /** Two events created in a row get distinct keys. */
  lemma CreatedEventIdsAreDistinct(db: Db, first: EventInput, second: EventInput, owner: Id)
    requires Valid(db)
    requires forall c :: c in NotNullColumns ==> Supplied(first, c) && Supplied(second, c)
    requires first.accId == Some(owner) && Key(Account, owner) in db.rows
    ensures CreateEvent(CreateEvent(db, first).value.0, second).value.1 != CreateEvent(db, first).value.1
  {
    CreateEventPreservesValid(db, first, owner);
  }
}

=== FILE: participants.dfy ===
/**
 * The event-participation service (eventParticipant/eventParticipant.service.js):
 * joining an event, and the three queries over the participant table.
 */
module Participants {
  import opened Wrappers
  import opened EventModel
  import opened Schema

  const EventNotFound := "Event not found"
  const AlreadyJoined := "User already joined this event"
  const JoinedMessage := "Joined event successfully"

  /** What a successful join answers. */
  datatype JoinReply = JoinReply(message: string, joinedAt: int)

  /** The value of a row's link to table `t`, if it is not null. */
  function LinkOf(row: Row, t: Table): Option<Id> {
    if t in row.links then Some(row.links[t]) else None
  }

  /** `c` is a participant row recording that account `a` joined event `e`. */
  predicate Joined(rows: map<Key, Row>, c: Key, a: Id, e: Id) {
    && c in rows
    && c.table == EventParticipant
    && LinkOf(rows[c], Account) == Some(a)
    && LinkOf(rows[c], Event) == Some(e)
  }

  /** No two participant rows record the same (account, event) pair. */
  ghost predicate UniqueJoins(rows: map<Key, Row>) {
    forall c1, c2, a, e :: Joined(rows, c1, a, e) && Joined(rows, c2, a, e) ==> c1 == c2
  }

  function ParticipantRow(accId: Id, eventId: Id, now: int): Row {
    Row(map[Account := accId, Event := eventId], ParticipantData(now))
  }

  /**
   * `joinEvent(accId, eventId)`: the event must exist, then the pair must be
   * new; on success one participant row is inserted, stamped with `now`.
   * Both refusals are thrown as bare strings.
   * A failure carries no store: the table is left as it was.
   */
  function JoinEvent(db: Db, accId: Id, eventId: Id, now: int): (r: Result<(Db, JoinReply), Thrown>)
    ensures Key(Event, eventId) !in db.rows ==> r == Failure(ThrownString(EventNotFound))
    ensures (Key(Event, eventId) in db.rows && exists c :: Joined(db.rows, c, accId, eventId))
      ==> r == Failure(ThrownString(AlreadyJoined))
    ensures r.Success? <==> Key(Event, eventId) in db.rows && !(exists c :: Joined(db.rows, c, accId, eventId))
    ensures r.Success? ==>
      var db' := r.value.0;
      && r.value.1 == JoinReply(JoinedMessage, now)
      && (exists id :: (Valid(db) ==> Key(EventParticipant, id) !in db.rows)
                    && db'.rows == db.rows[Key(EventParticipant, id) := ParticipantRow(accId, eventId, now)])
  {
    if Key(Event, eventId) !in db.rows then
      Failure(ThrownString(EventNotFound))
    else if exists c :: c in db.rows && Joined(db.rows, c, accId, eventId) then
      Failure(ThrownString(AlreadyJoined))
    else
      var (db', id) := Insert(db, EventParticipant, ParticipantRow(accId, eventId, now));
      Success((db', JoinReply(JoinedMessage, now)))
  }

  /** A join never introduces a second row for the same pair. */
  lemma JoinPreservesUniqueJoins(db: Db, accId: Id, eventId: Id, now: int)
    requires Valid(db) && UniqueJoins(db.rows)
    requires JoinEvent(db, accId, eventId, now).Success?
    ensures UniqueJoins(JoinEvent(db, accId, eventId, now).value.0.rows)
  {
    var (db', id) := Insert(db, EventParticipant, ParticipantRow(accId, eventId, now));
    var added := Key(EventParticipant, id);
    forall c1, c2, a, e | Joined(db'.rows, c1, a, e) && Joined(db'.rows, c2, a, e)
      ensures c1 == c2
    {
      if c1 != added && c2 != added {
        assert Joined(db.rows, c1, a, e) && Joined(db.rows, c2, a, e);
      } else if c1 == added && c2 != added {
        assert Joined(db.rows, c2, accId, eventId);
      } else if c2 == added && c1 != added {
        assert Joined(db.rows, c1, accId, eventId);
      }
    }
  }

  /**
   * The service never checks that the account exists; a join by a live
   * account keeps every link live.
   */
  lemma JoinPreservesValid(db: Db, accId: Id, eventId: Id, now: int)
    requires Valid(db) && Key(Account, accId) in db.rows
    requires JoinEvent(db, accId, eventId, now).Success?
    ensures Valid(JoinEvent(db, accId, eventId, now).value.0)
  {
    InsertPreservesValid(db, EventParticipant, ParticipantRow(accId, eventId, now));
  }

  /** Cascading deletion removes rows only, so it cannot create a duplicate pair. */
  lemma DeletePreservesUniqueJoins(db: Db, k: Key)
    requires UniqueJoins(db.rows)
    ensures UniqueJoins(Delete(db, k).rows)
  {
    var rows' := Delete(db, k).rows;
    forall c1, c2, a, e | Joined(rows', c1, a, e) && Joined(rows', c2, a, e)
      ensures c1 == c2
    {
      assert Joined(db.rows, c1, a, e) && Joined(db.rows, c2, a, e);
    }
  }

  // ----- queries -----

  /** `getJoinedEvents(accId)`: the participant rows of one account. */
  function GetJoinedEvents(db: Db, accId: Id): (r: set<Key>)
    ensures forall c :: c in r ==> c in db.rows && c.table == EventParticipant && LinkOf(db.rows[c], Account) == Some(accId)
    ensures forall c :: c in db.rows && c.table == EventParticipant && LinkOf(db.rows[c], Account) == Some(accId) ==> c in r
    ensures forall c, e :: Joined(db.rows, c, accId, e) ==> c in r
  {
    set c | c in db.rows && c.table == EventParticipant && LinkOf(db.rows[c], Account) == Some(accId)
  }

  /** `getAllParticipants(eventId)`: the participant rows of one event. */
  function GetAllParticipants(db: Db, eventId: Id): (r: set<Key>)
    ensures forall c :: c in r ==> c in db.rows && c.table == EventParticipant && LinkOf(db.rows[c], Event) == Some(eventId)
    ensures forall c :: c in db.rows && c.table == EventParticipant && LinkOf(db.rows[c], Event) == Some(eventId) ==> c in r
    ensures forall c, a :: Joined(db.rows, c, a, eventId) ==> c in r
  {
    set c | c in db.rows && c.table == EventParticipant && LinkOf(db.rows[c], Event) == Some(eventId)
  }

  /** `getAll()`: every participant row. */
  function GetAll(db: Db): (r: set<Key>)
    ensures forall c :: c in r <==> c in db.rows && c.table == EventParticipant
  {
    set c | c in db.rows && c.table == EventParticipant
  }

  /** A join shows up in both per-account and per-event queries, and nowhere else. */
  lemma JoinThenQuery(db: Db, accId: Id, eventId: Id, now: int)
    requires Valid(db)
    requires JoinEvent(db, accId, eventId, now).Success?
    ensures var db' := JoinEvent(db, accId, eventId, now).value.0;
      exists added :: added !in db.rows
        && GetJoinedEvents(db', accId) == GetJoinedEvents(db, accId) + {added}
        && GetAllParticipants(db', eventId) == GetAllParticipants(db, eventId) + {added}
        && GetAll(db') == GetAll(db) + {added}
        && (forall a :: a != accId ==> GetJoinedEvents(db', a) == GetJoinedEvents(db, a))
        && (forall e :: e != eventId ==> GetAllParticipants(db', e) == GetAllParticipants(db, e))
  {
    var row := ParticipantRow(accId, eventId, now);
    var (db', id) := Insert(db, EventParticipant, row);
    var added := Key(EventParticipant, id);
    InsertedRowInQueries(db, db', added, row);
    assert GetAll(db') == GetAll(db) + {added};
  }

  /** How the two keyed queries change when one participant row is added under a new key. */
  lemma InsertedRowInQueries(db: Db, db': Db, added: Key, row: Row)
    requires added !in db.rows && added.table == EventParticipant
    requires db'.rows == db.rows[added := row]
    requires Account in row.links && Event in row.links
    ensures forall a ::
              GetJoinedEvents(db', a) == GetJoinedEvents(db, a) + (if a == row.links[Account] then {added} else {})
    ensures forall e ::
              GetAllParticipants(db', e) == GetAllParticipants(db, e) + (if e == row.links[Event] then {added} else {})
  {
    forall a
      ensures GetJoinedEvents(db', a) == GetJoinedEvents(db, a) + (if a == row.links[Account] then {added} else {})
    {
    }
    forall e
      ensures GetAllParticipants(db', e) == GetAllParticipants(db, e) + (if e == row.links[Event] then {added} else {})
    {
    }
  }

  /** Every participant row is found by its account's query and by its event's query. */
  lemma QueriesCoverAll(db: Db, c: Key, a: Id, e: Id)
    requires c in GetAll(db) && Joined(db.rows, c, a, e)
    ensures c in GetJoinedEvents(db, a) && c in GetAllParticipants(db, e)
    ensures forall a' :: a' != a ==> c !in GetJoinedEvents(db, a')
  {
  }

  /** After an account is deleted, none of its joins remain. */
  lemma DeleteAccountClearsJoins(db: Db, accId: Id)
    requires Valid(db)
    ensures GetJoinedEvents(Delete(db, Key(Account, accId)), accId) == {}
  {
    var db' := Delete(db, Key(Account, accId));
    forall c | c in GetJoinedEvents(db', accId)
      ensures false
    {
      DeleteRemovesChildren(db, Key(Account, accId), c);
    }
  }

  /** After an event is deleted, none of its participants remain. */
  lemma DeleteEventClearsParticipants(db: Db, eventId: Id)
    requires Valid(db)
    ensures GetAllParticipants(Delete(db, Key(Event, eventId)), eventId) == {}
  {
    var db' := Delete(db, Key(Event, eventId));
    forall c | c in GetAllParticipants(db', eventId)
      ensures false
    {
      DeleteRemovesChildren(db, Key(Event, eventId), c);
    }
  }
}

=== FILE: path_names.dfy ===
/**
 * POSIX `path.basename(p)` without an extension argument: the last
 * non-empty segment of a slash-separated path, trailing slashes ignored.
 */
module PathNames {

  /** The longest suffix of `p` without a '/'. */
  function LastSegment(p: string): (r: string)
    ensures '/' !in r
    ensures |r| <= |p| && p[|p| - |r|..] == r
    ensures |r| < |p| ==> p[|p| - |r| - 1] == '/'
  {
    if p == [] || p[|p| - 1] == '/' then []
    else LastSegment(p[..|p| - 1]) + [p[|p| - 1]]
  }

  /** `p` without its run of trailing slashes. */
  function StripTrailingSlashes(p: string): (r: string)
    ensures |r| <= |p| && r == p[..|r|]
    ensures r == [] || r[|r| - 1] != '/'
    ensures forall i :: |r| <= i < |p| ==> p[i] == '/'
  {
    if p != [] && p[|p| - 1] == '/' then StripTrailingSlashes(p[..|p| - 1]) else p
  }

  /**
   * `r` sits at `p[i..j]` right after a '/' (or at the start), and only
   * slashes follow it.
   */
  predicate SegmentAt(p: string, r: string, i: int, j: int) {
    && 0 <= i <= j <= |p| && p[i..j] == r
    && (i == 0 || p[i - 1] == '/')
    && (forall k :: j <= k < |p| ==> p[k] == '/')
  }

  /**
   * The last segment: `p` is some prefix ending in '/' (or empty), then the
   * result, then only slashes; the result is empty exactly when `p` holds
   * nothing but slashes.
   */
  function Basename(p: string): (r: string)
    ensures '/' !in r
    ensures exists i, j :: SegmentAt(p, r, i, j)
    ensures r == [] <==> forall k :: 0 <= k < |p| ==> p[k] == '/'
  {
    BasenameShape(p);
    LastSegment(StripTrailingSlashes(p))
  }

  lemma BasenameShape(p: string)
    ensures var r := LastSegment(StripTrailingSlashes(p));
      && (exists i, j :: SegmentAt(p, r, i, j))
      && (r == [] <==> forall k :: 0 <= k < |p| ==> p[k] == '/')
  {
    var stripped := StripTrailingSlashes(p);
    var r := LastSegment(stripped);
    var i, j := |stripped| - |r|, |stripped|;
    assert stripped == p[..j];
    assert p[i..j] == r by {
      assert p[i..j] == stripped[i..j];
    }
    assert i == 0 || p[i - 1] == '/' by {
      if i > 0 {
        assert stripped[i - 1] == '/';
        assert p[i - 1] == stripped[i - 1];
      }
    }
    assert SegmentAt(p, r, i, j);
    EmptyBasenameIffAllSlashes(p);
  }

  lemma EmptyBasenameIffAllSlashes(p: string)
    ensures LastSegment(StripTrailingSlashes(p)) == [] <==> forall k :: 0 <= k < |p| ==> p[k] == '/'
  {
    var stripped := StripTrailingSlashes(p);
    if stripped == [] {
      assert forall k :: 0 <= k < |p| ==> p[k] == '/';
    } else {
      var last := |stripped| - 1;
      assert p[last] == stripped[last] != '/';
      assert LastSegment(stripped) != [];
    }
  }

  /** A file name stored under a directory is recovered by `Basename`. */
  lemma {:induction false} BasenameOfJoin(dir: string, name: string)
    requires name != [] && '/' !in name
    ensures Basename(dir + "/" + name) == name
  {
    var p := dir + "/" + name;
    assert StripTrailingSlashes(p) == p;
    LastSegmentOfJoin(dir + "/", name);
  }

  lemma {:induction false} LastSegmentOfJoin(prefix: string, name: string)
    requires prefix != [] && prefix[|prefix| - 1] == '/'
    requires '/' !in name
    ensures LastSegment(prefix + name) == name
    decreases |name|
  {
    if name == [] {
      assert prefix + name == prefix;
    } else {
      var front := name[..|name| - 1];
      assert (prefix + name)[..|prefix + name| - 1] == prefix + front;
      LastSegmentOfJoin(prefix, front);
      assert front + [name[|name| - 1]] == name;
    }
  }
}

=== FILE: revenue.dfy ===
/**
 * The revenue service (Revenue/revenue.service.js): create, look up,
 * partially update and delete rows of a standalone revenue table.
 */
module Revenue {
  import opened Wrappers

  /** A column value; the revenue model's own columns are not known here. */
  datatype Value = Text(s: string) | Number(n: int) | Null

  /** A row's attributes by column name; the key is kept apart from them. */
  type Fields = map<string, Value>

  /** The table's rows by auto-increment id, and the next id to hand out. */
  datatype Ledger = Ledger(rows: map<nat, Fields>, next: nat)

  /** The message of the `Error` object that update and delete throw for a missing id. */
  const NotFound := "Revenue not found"

  /** Every stored id is below the auto-increment counter. */
  predicate LedgerValid(l: Ledger) {
    forall id :: id in l.rows ==> id < l.next
  }

  /** `createRevenue(data)`: a new row carrying `data` under a fresh id. */
  function CreateRevenue(l: Ledger, data: Fields): (r: (Ledger, nat))
    ensures r.0.rows == l.rows[r.1 := data]
    ensures LedgerValid(l) ==> r.1 !in l.rows && LedgerValid(r.0)
  {
    (Ledger(l.rows[l.next := data], l.next + 1), l.next)
  }

  /** `getRevenueById(id)`: the row with that id, or nothing. */
  function GetRevenueById(l: Ledger, id: nat): (r: Option<Fields>)
    ensures r.Some? <==> id in l.rows
    ensures r.Some? ==> r.value == l.rows[id]
  {
    if id in l.rows then Some(l.rows[id]) else None
  }

  /**
   * `Object.assign(target, data)`: every supplied column takes the supplied
   * value, every other column keeps its old one.
   */
  function Assign(target: Fields, data: Fields): (r: Fields)
    ensures r.Keys == target.Keys + data.Keys
    ensures forall f :: f in data ==> r[f] == data[f]
    ensures forall f :: f in target && f !in data ==> r[f] == target[f]
  {
    target + data
  }

  /** `updateRevenue(id, data)`: fails on a missing id, else overwrites the supplied columns. */
  function UpdateRevenue(l: Ledger, id: nat, data: Fields): (r: Result<(Ledger, Fields), Thrown>)
    ensures r.Failure? <==> id !in l.rows
    ensures r.Failure? ==> r.error == ThrownError(NotFound)
    ensures r.Success? ==>
      && r.value.1 == Assign(l.rows[id], data)
      && r.value.0 == l.(rows := l.rows[id := r.value.1])
  {
    match GetRevenueById(l, id)
    case None => Failure(ThrownError(NotFound))
    case Some(revenue) =>
      var saved := Assign(revenue, data);
      Success((l.(rows := l.rows[id := saved]), saved))
  }

  /** `deleteRevenue(id)`: fails on a missing id, else removes the row and returns it. */
  function DeleteRevenue(l: Ledger, id: nat): (r: Result<(Ledger, Fields), Thrown>)
    ensures r.Failure? <==> id !in l.rows
    ensures r.Failure? ==> r.error == ThrownError(NotFound)
    ensures r.Success? ==>
      && r.value.1 == l.rows[id]
      && r.value.0.rows.Keys == l.rows.Keys - {id}
      && r.value.0.next == l.next
      && (forall other :: other in r.value.0.rows ==> r.value.0.rows[other] == l.rows[other])
  {
    match GetRevenueById(l, id)
    case None => Failure(ThrownError(NotFound))
    case Some(revenue) => Success((l.(rows := l.rows - {id}), revenue))
  }

  // ----- how the operations relate -----

  /** A created row is found under the returned id with exactly the supplied data. */
  lemma CreateThenGet(l: Ledger, data: Fields)
    requires LedgerValid(l)
    ensures var (l', id) := CreateRevenue(l, data);
      && GetRevenueById(l', id) == Some(data)
      && GetRevenueById(l, id) == None
      && forall other :: other != id ==> GetRevenueById(l', other) == GetRevenueById(l, other)
  {
  }

  /** After a successful delete the id is gone and every other row is untouched. */
  lemma DeleteThenGet(l: Ledger, id: nat)
    requires DeleteRevenue(l, id).Success?
    ensures var l' := DeleteRevenue(l, id).value.0;
      && GetRevenueById(l', id) == None
      && DeleteRevenue(l', id) == Failure(ThrownError(NotFound))
      && UpdateRevenue(l', id, map[]) == Failure(ThrownError(NotFound))
      && forall other :: other != id ==> GetRevenueById(l', other) == GetRevenueById(l, other)
  {
  }

  /** An update is observed by the next lookup, and no other row changes. */
  lemma UpdateThenGet(l: Ledger, id: nat, data: Fields)
    requires id in l.rows
    ensures var l' := UpdateRevenue(l, id, data).value.0;
      && GetRevenueById(l', id) == Some(Assign(l.rows[id], data))
      && forall other :: other != id ==> GetRevenueById(l', other) == GetRevenueById(l, other)
  {
  }

  /** Two updates in a row are one update with the later values winning. */
  lemma {:induction false} UpdatesCompose(l: Ledger, id: nat, first: Fields, second: Fields)
    requires id in l.rows
    ensures var l1 := UpdateRevenue(l, id, first).value.0;
      UpdateRevenue(l1, id, second) == UpdateRevenue(l, id, Assign(first, second))
  {
    var row := l.rows[id];
    var l1 := UpdateRevenue(l, id, first).value.0;
    var merged := Assign(row, Assign(first, second));
    assert Assign(Assign(row, first), second) == merged;
    assert l1.rows[id := merged] == l.rows[id := merged];
  }

  /** Repeating an update changes nothing more. */
  lemma UpdateIsIdempotent(l: Ledger, id: nat, data: Fields)
    requires id in l.rows
    ensures var l1 := UpdateRevenue(l, id, data).value.0;
      UpdateRevenue(l1, id, data).value.0 == l1
  {
    UpdatesCompose(l, id, data, data);
    assert Assign(data, data) == data;
  }

  /** Update and delete keep every id below the counter. */
  lemma MutationsPreserveValid(l: Ledger, id: nat, data: Fields)
    requires LedgerValid(l)
    ensures UpdateRevenue(l, id, data).Success? ==> LedgerValid(UpdateRevenue(l, id, data).value.0)
    ensures DeleteRevenue(l, id).Success? ==> LedgerValid(DeleteRevenue(l, id).value.0)
  {
  }
}

=== FILE: schema.dfy ===
/**
 * The relational store declared in _helpers/db.js: ten tables, the foreign
 * keys between them, and MySQL's `ON DELETE CASCADE` semantics for every
 * `hasMany(..., { onDelete: 'CASCADE' })` association.
 *
 * A row is addressed by its table and auto-increment id. Its foreign keys are
 * a map from the parent table to the parent's id; a parent table missing from
 * the map is a NULL link.
 */
module Schema {
  import opened EventModel

  datatype Table =
    | Account | RefreshToken | Campaign | Event | Donation
    | Reward | RedeemReward | EventParticipant | Withdraw | Comment

  /**
   * The tables a row of `t` may link to. Every pair (parent, t) is one
   * cascading `hasMany` association.
   */
  function ParentTables(t: Table): (r: set<Table>)
    ensures forall p :: p in r ==> Depth(p) < Depth(t)
    ensures Account in r <==> t != Account
    ensures Campaign in r <==> t == Donation || t == Withdraw || t == Comment
    ensures Event in r <==> t == EventParticipant
    ensures Reward in r <==> t == RedeemReward
    ensures forall p :: p in r ==> p in {Account, Campaign, Event, Reward}
  {
    match t
    case Account => {}
    case RefreshToken | Campaign | Event | Reward => {Account}
    case Donation | Withdraw | Comment => {Account, Campaign}
    case RedeemReward => {Account, Reward}
    case EventParticipant => {Account, Event}
  }

  /** Distance from `Account` in the association graph; a parent is always shallower. */
  function Depth(t: Table): nat {
    match t
    case Account => 0
    case RefreshToken | Campaign | Event | Reward => 1
    case Donation | Withdraw | Comment | RedeemReward | EventParticipant => 2
  }

  datatype Key = Key(table: Table, id: Id)

  /** The attributes a row carries besides its links; only events and join rows are modelled. */
  datatype Data =
    | EventData(attrs: EventAttrs)
    | ParticipantData(joinedAt: int)
    | Opaque

  datatype Row = Row(links: map<Table, Id>, data: Data)

  /** The rows of every table, and each table's auto-increment counter. */
  datatype Db = Db(rows: map<Key, Row>, counters: map<Table, nat>)

  /** The id the next insert into `t` receives; auto-increment starts at 1. */
  function NextId(db: Db, t: Table): nat {
    if t in db.counters then db.counters[t] else 1
  }

  /** The key of the row that `rows[c]` links to through its `p` column. */
  function Parent(rows: map<Key, Row>, c: Key, p: Table): Key
    requires c in rows && p in rows[c].links
  {
    Key(p, rows[c].links[p])
  }

  predicate DataFits(t: Table, d: Data) {
    match d
    case EventData(_) => t == Event
    case ParticipantData(_) => t == EventParticipant
    case Opaque => t != Event && t != EventParticipant
  }

  /**
   * A row links only along declared associations, carries the data of its
   * table, and an event always has its owning account (`Acc_ID` is not null).
   */
  predicate RowShape(k: Key, r: Row) {
    && r.links.Keys <= ParentTables(k.table)
    && DataFits(k.table, r.data)
    && (k.table == Event ==> Account in r.links)
  }

  /** Referential integrity: every non-null link names a live row. */
  predicate LinksLive(rows: map<Key, Row>) {
    forall c, p :: c in rows && p in rows[c].links ==> Parent(rows, c, p) in rows
  }

  /** The store invariant: well-shaped rows, ids below their counters, no dangling link. */
  predicate Valid(db: Db) {
    && (forall k :: k in db.rows ==> RowShape(k, db.rows[k]) && k.id < NextId(db, k.table))
    && LinksLive(db.rows)
  }

  /**
   * `c` is removed when `k` is deleted: it is `k`, or one of its links names a
   * row that is removed. Links always point to a shallower table, so the
   * walk terminates.
   */
  predicate DependsOn(rows: map<Key, Row>, c: Key, k: Key)
    ensures DependsOn(rows, c, k) && c != k ==> c in rows && Depth(c.table) > Depth(k.table)
    decreases Depth(c.table)
  {
    || c == k
    || (c in rows &&
        exists p :: p in rows[c].links && p in ParentTables(c.table) && DependsOn(rows, Parent(rows, c, p), k))
  }

  /**
   * Deleting row `k` with every association cascading: the row and all rows
   * depending on it disappear at once. Counters are untouched, so deleted
   * ids are never handed out again.
   */
  function Delete(db: Db, k: Key): (r: Db)
    ensures k !in r.rows
    ensures r.rows.Keys <= db.rows.Keys
    ensures forall c :: c in r.rows ==> r.rows[c] == db.rows[c]
    ensures r.counters == db.counters
  {
    Db(map c | c in db.rows && !DependsOn(db.rows, c, k) :: db.rows[c], db.counters)
  }

  /**
   * Insertion with an auto-increment key: the new row gets the table's
   * counter value, and the counter moves past it.
   */
  function Insert(db: Db, t: Table, row: Row): (r: (Db, Id))
    ensures r.0.rows == db.rows[Key(t, r.1) := row]
    ensures Valid(db) ==> Key(t, r.1) !in db.rows
    ensures r.1 < NextId(r.0, t)
    ensures forall u :: u != t ==> NextId(r.0, u) == NextId(db, u)
  {
    var id := NextId(db, t);
    (Db(db.rows[Key(t, id) := row], db.counters[t := id + 1]), id)
  }

  /** Inserting a well-shaped row whose links are all live keeps the store valid. */
  lemma InsertPreservesValid(db: Db, t: Table, row: Row)
    requires Valid(db)
    requires RowShape(Key(t, NextId(db, t)), row)
    requires forall p :: p in row.links ==> Key(p, row.links[p]) in db.rows
    ensures Valid(Insert(db, t, row).0)
  {
    var (db', id) := Insert(db, t, row);
    forall c, p | c in db'.rows && p in db'.rows[c].links
      ensures Parent(db'.rows, c, p) in db'.rows
    {
      if c != Key(t, id) {
        assert Parent(db.rows, c, p) in db.rows;
      }
    }
  }

  // ----- the shape of the cascade -----

  /** In a store without dangling links, only a live row has dependents. */
  lemma {:induction false} DependsOnLiveRow(rows: map<Key, Row>, c: Key, k: Key)
    requires LinksLive(rows)
    requires c in rows && DependsOn(rows, c, k)
    ensures k in rows
    decreases Depth(c.table)
  {
    if c != k {
      var p :| p in rows[c].links && p in ParentTables(c.table) && DependsOn(rows, Parent(rows, c, p), k);
      DependsOnLiveRow(rows, Parent(rows, c, p), k);
    }
  }

  /** A row linking to a row that a deletion removes is removed too. */
  lemma DeleteIsDownwardClosed(db: Db, k: Key, c: Key, p: Table)
    requires LinksLive(db.rows)
    requires c in db.rows && RowShape(c, db.rows[c]) && p in db.rows[c].links
    ensures Parent(db.rows, c, p) !in Delete(db, k).rows ==> c !in Delete(db, k).rows
  {
    if Parent(db.rows, c, p) !in Delete(db, k).rows {
      assert Parent(db.rows, c, p) in db.rows;
      assert DependsOn(db.rows, Parent(db.rows, c, p), k);
      assert p in ParentTables(c.table);
    }
  }

  /**
   * Deletion removes nothing it is not forced to: any set of keys that holds
   * `k` and every row linking into it contains every removed row.
   */
  lemma DeleteRemovesOnlyForcedRows(db: Db, k: Key, removed: set<Key>)
    requires k in removed
    requires forall c, p :: c in db.rows && p in db.rows[c].links && Parent(db.rows, c, p) in removed ==> c in removed
    ensures forall c :: c in db.rows && c !in Delete(db, k).rows ==> c in removed
  {
    forall c | c in db.rows && c !in Delete(db, k).rows
      ensures c in removed
    {
      ForcedRowsAreRemoved(db.rows, k, removed, c);
    }
  }

  lemma {:induction false} ForcedRowsAreRemoved(rows: map<Key, Row>, k: Key, removed: set<Key>, c: Key)
    requires k in removed
    requires forall c, p :: c in rows && p in rows[c].links && Parent(rows, c, p) in removed ==> c in removed
    requires DependsOn(rows, c, k)
    ensures c in removed
    decreases Depth(c.table)
  {
    if c != k {
      var p :| p in rows[c].links && p in ParentTables(c.table) && DependsOn(rows, Parent(rows, c, p), k);
      ForcedRowsAreRemoved(rows, k, removed, Parent(rows, c, p));
    }
  }

  /** Deleting from a valid store leaves a valid store: no link is left dangling. */
  lemma DeletePreservesValid(db: Db, k: Key)
    requires Valid(db)
    ensures Valid(Delete(db, k))
  {
    var r := Delete(db, k);
    forall c, p | c in r.rows && p in r.rows[c].links
      ensures Parent(r.rows, c, p) in r.rows
    {
      if Parent(r.rows, c, p) !in r.rows {
        DeleteIsDownwardClosed(db, k, c, p);
      }
    }
  }

  /** Rows that do not depend on `k` survive its deletion unchanged. */
  lemma DeleteFrame(db: Db, k: Key, c: Key)
    requires c in db.rows && !DependsOn(db.rows, c, k)
    ensures c in Delete(db, k).rows && Delete(db, k).rows[c] == db.rows[c]
  {
  }

  /** Deleting a row whose key is not live changes nothing. */
  lemma DeleteMissingRowIsNoop(db: Db, k: Key)
    requires LinksLive(db.rows) && k !in db.rows
    ensures Delete(db, k) == db
  {
    forall c | c in db.rows
      ensures !DependsOn(db.rows, c, k)
    {
      if DependsOn(db.rows, c, k) {
        DependsOnLiveRow(db.rows, c, k);
      }
    }
    assert Delete(db, k).rows == db.rows;
  }

  /** Deletion never reaches a row of the same depth or shallower than the deleted one. */
  lemma DeleteKeepsShallowerRows(db: Db, k: Key, c: Key)
    requires c in db.rows && c != k && Depth(c.table) <= Depth(k.table)
    ensures c in Delete(db, k).rows
  {
  }

  /** Associations are one-directional: deleting a row never removes a row it links to. */
  lemma DeleteKeepsParents(db: Db, k: Key, p: Table)
    requires Valid(db) && k in db.rows && p in db.rows[k].links
    ensures Parent(db.rows, k, p) in Delete(db, k).rows
  {
    assert p in ParentTables(k.table);
    DeleteKeepsShallowerRows(db, k, Parent(db.rows, k, p));
  }

  // ----- the associations of _helpers/db.js -----

  /** A row linking directly to the deleted row is removed. */
  lemma DeleteRemovesChildren(db: Db, k: Key, c: Key)
    requires Valid(db)
    requires c in db.rows && k.table in db.rows[c].links && db.rows[c].links[k.table] == k.id
    ensures c !in Delete(db, k).rows
  {
    assert Parent(db.rows, c, k.table) == k;
    assert k.table in ParentTables(c.table);
  }

  /** Cascades are transitive: a row linking to a removed child is removed as well. */
  lemma DeleteRemovesGrandchildren(db: Db, k: Key, m: Key, c: Key)
    requires Valid(db)
    requires m in db.rows && k.table in db.rows[m].links && db.rows[m].links[k.table] == k.id
    requires c in db.rows && m.table in db.rows[c].links && db.rows[c].links[m.table] == m.id
    ensures c !in Delete(db, k).rows
  {
    DeleteRemovesChildren(db, k, m);
    assert Parent(db.rows, c, m.table) == m;
    DeleteIsDownwardClosed(db, k, c, m.table);
  }

  /**
   * Deleting an account removes every row of every other table that it owns
   * (refresh tokens, campaigns, events, donations, rewards, redemptions,
   * event participations, withdrawals and comments), and also every row of
   * any account that hangs off a campaign, reward or event it owns.
   */
  lemma DeleteAccountCascade(db: Db, a: Id)
    requires Valid(db)
    ensures forall t :: t != Account ==> Account in ParentTables(t)
    ensures forall c :: c in db.rows && Account in db.rows[c].links && db.rows[c].links[Account] == a
                 ==> c !in Delete(db, Key(Account, a)).rows
    ensures forall c, p :: c in db.rows && p in db.rows[c].links && Parent(db.rows, c, p) in db.rows
                 && Account in db.rows[Parent(db.rows, c, p)].links
                 && db.rows[Parent(db.rows, c, p)].links[Account] == a
                 ==> c !in Delete(db, Key(Account, a)).rows
  {
    var k := Key(Account, a);
    forall c | c in db.rows && Account in db.rows[c].links && db.rows[c].links[Account] == a
      ensures c !in Delete(db, k).rows
    {
      DeleteRemovesChildren(db, k, c);
    }
    forall c, p | c in db.rows && p in db.rows[c].links && Parent(db.rows, c, p) in db.rows
                 && Account in db.rows[Parent(db.rows, c, p)].links
                 && db.rows[Parent(db.rows, c, p)].links[Account] == a
      ensures c !in Delete(db, k).rows
    {
      DeleteRemovesGrandchildren(db, k, Parent(db.rows, c, p), c);
    }
  }

  /** Deleting a campaign removes its donations, withdrawals and comments. */
  lemma DeleteCampaignCascade(db: Db, g: Id)
    requires Valid(db)
    ensures forall t :: Campaign in ParentTables(t) <==> t in {Donation, Withdraw, Comment}
    ensures forall c :: c in db.rows && Campaign in db.rows[c].links && db.rows[c].links[Campaign] == g
                 ==> c !in Delete(db, Key(Campaign, g)).rows
  {
    forall c | c in db.rows && Campaign in db.rows[c].links && db.rows[c].links[Campaign] == g
      ensures c !in Delete(db, Key(Campaign, g)).rows
    {
      DeleteRemovesChildren(db, Key(Campaign, g), c);
    }
  }

  /** Deleting an event removes its participants; deleting a reward removes its redemptions. */
  lemma DeleteEventAndRewardCascade(db: Db, id: Id)
    requires Valid(db)
    ensures forall t :: Event in ParentTables(t) <==> t == EventParticipant
    ensures forall t :: Reward in ParentTables(t) <==> t == RedeemReward
    ensures forall c :: c in db.rows && Event in db.rows[c].links && db.rows[c].links[Event] == id
                 ==> c !in Delete(db, Key(Event, id)).rows
    ensures forall c :: c in db.rows && Reward in db.rows[c].links && db.rows[c].links[Reward] == id
                 ==> c !in Delete(db, Key(Reward, id)).rows
  {
    forall c | c in db.rows && Event in db.rows[c].links && db.rows[c].links[Event] == id
      ensures c !in Delete(db, Key(Event, id)).rows
    {
      DeleteRemovesChildren(db, Key(Event, id), c);
    }
    forall c | c in db.rows && Reward in db.rows[c].links && db.rows[c].links[Reward] == id
      ensures c !in Delete(db, Key(Reward, id)).rows
    {
      DeleteRemovesChildren(db, Key(Reward, id), c);
    }
  }
}

=== FILE: wrappers.dfy ===
/** Result types and the thrown values shared by every module of the model. */
module Wrappers {

  /** A value that may be absent: a JavaScript `null`/`undefined` or a lookup miss. */
  datatype Option<+T> = None | Some(value: T)

  /** The outcome of an operation that either returns a value or throws. */
  datatype Result<+R, +E> = Success(value: R) | Failure(error: E)

  /**
   * What a JavaScript `throw` carries: a bare string (`throw 'msg'`), or an
   * `Error` object with its message (`throw new Error('msg')`). The two are
   * never equal under `===`, even with the same text.
   */
  datatype Thrown = ThrownString(text: string) | ThrownError(message: string)
}
